=== FILE: README.md ===
# Car agent of the trafsim traffic simulator, modelled in Dafny

This project models the per-tick decision logic of the vehicle agent `ts::Car`
of the trafsim traffic simulator. Each frame, every car runs through the same steps:

- It finishes at once if its route is empty.
- It checks whether another car heading nearly the same way is closer than a
  tenth of its length: a rear-end collision, whichever car is in front. On the
  first such accident it stops, counts the accident, blocks the node it left and
  the node ahead, and searches a new route.
- It tests whether it is within one step of its front waypoint. On arrival it
  counts a passage of the node it left, snaps onto the waypoint and pops it.
  It then finishes if the route is used up or the destination is within one step
  of the new front waypoint, so the car can stop one segment short of the
  destination, resting on the waypoint it just reached.
- Otherwise it applies the speed rule: stop for a car ahead, otherwise stop for
  a red light ahead, otherwise accelerate up to 200. Then it moves along its
  heading.

The model is functional. A `Car` record holds:

- the fixed `origin` and `dest`;
- `prev`, the node last passed, and `route`, the waypoints still ahead;
- `position`, `dir`, `speed`, `accel` and `length`;
- the `finished` and `inAccident` flags.

A `World` record holds what all cars share: the set of blocked nodes, the
per-node passage counters, and the process-wide accident count (the static
`accident_count_`, read by `getAccidentCount`). That count is an `unsigned int`,
so it is modelled as a 32-bit value that wraps to 0 (`Roads.CountUp`).

Geometry and path search are collaborators whose code is not part of this
model. They are passed in as the `Env` record of function values: distance,
dot product, normalisation, rectangle containment, node positions and the
route search. The only fact assumed about them is that distance is never
negative, which the `NonNeg` result type states. Other cars are a read-only
list of `CarView`s (identity, bounds, position, heading). Traffic lights are a
list of networks, each a list of `Light`s (can-drive flag, blocker rectangle).

Modules, one per file:

- `Geometry` (geometry.dfy): vectors, rectangles, `Min`.
- `Roads` (roads.dfy): nodes, the shared world, lights, and the collaborators.
- `Vehicle` (vehicle.dfy): the car record, its constants and construction.
- `Hazards` (hazards.dfy): probe points, the speed rule and accident detection.
  The speed rule and accident detection each come as a declarative definition
  and as a loop method that follows the loops of `ts::Car`, and the two are
  proved equal.
- `CarUpdate` (car_update.dfy): accident recovery, waypoint arrival, the tick
  (as written, and with its defect corrected), and the imperative `Update`.
- `Lifetime` (lifetime.dfy): a car over a sequence of frames. The world each
  tick starts from is given by the frame, because other cars may change it in
  between.

Some behaviours of the code are worth knowing when reading the model:

- The reroute after an accident searches from the car's fixed origin `pos_`,
  not from where the car is (Car.cpp:136).
- The speed rule looks at every entry in the list of cars, the car's own
  included; accident detection skips the car's own entry.
- Accidents are counted per car that detects one, and each car compares the
  distance with a tenth of its own length. Both cars of a pair heading the same
  way detect it when the distance is below a tenth of the shorter car's length,
  so one collision can advance the accident count twice
  (`CarUpdate.PairCountsTwoAccidents`); between that and a tenth of the longer
  car's length only the longer car detects it.
- The route can grow at a reroute. It is consumed only from the front outside
  accident ticks, which is at all times once the car has had its accident.

## Model

| member | source | states |
|---|---|---|
| `Vehicle.NewCar` | trafsim-master/src/trafficsim/Car.cpp:14-23 | a new car keeps the identity and length it is given, sits at its origin with `prev` the origin and a zero heading, is neither finished nor in an accident, has speed 200 and acceleration 200, and its route is the search from origin to destination over the current blocked set |
| `Roads.CountUp` | trafsim-master/src/trafficsim/Car.cpp:164 | one more accident adds one to the 32-bit unsigned count, and 2^32-1 wraps to 0 |
| `Roads.Passed` | trafsim-master/src/trafficsim/Car.cpp:53 | passing a node raises that node's counter by exactly one, leaves every other node's counter, the blocked set and the accident count alone |
| `Hazards.Velocity` | trafsim-master/src/trafficsim/Car.cpp:79-131 | the speed the rule yields is never above the cap of 200, whatever the hazards, speed, acceleration or step |
| `Hazards.VelocityBounds` | trafsim-master/src/trafficsim/Car.cpp:79-131 | the speed the rule yields never exceeds 200, and is never negative when speed, acceleration and the time step are not |
| `Hazards.CalculateVelocity` | trafsim-master/src/trafficsim/Car.cpp:79-131 | the first-hit loops over cars and then over every light of every network yield 0 when any car's bounds (this car's own included) contain either probe, else 0 when a light that forbids passage has a blocker containing either probe, else speed plus acceleration times the step capped at 200 |
| `Hazards.GreenLightsNeverStop` | trafsim-master/src/trafficsim/Car.cpp:100-128 | removing every light that allows passage from every network never changes the speed the rule yields |
| `Hazards.CheckAccident` | trafsim-master/src/trafficsim/Car.cpp:139-158 | the loop reports an accident exactly when some car with a different identity is closer than a tenth of this car's length and their headings have dot product above 0.8 |
| `Hazards.OwnEntryIgnored` | trafsim-master/src/trafficsim/Car.cpp:145 | inserting an entry with the car's own identity anywhere in the list of cars, with any bounds, position and heading, never changes whether the car detects an accident |
| `CarUpdate.HandleAccident` | trafsim-master/src/trafficsim/Car.cpp:160-176 | recovery flags the car, stops it and advances the 32-bit accident count by one, wrapping from 2^32-1 to 0. With a front waypoint it blocks the node left and that waypoint, and the new route is the search from the fixed origin over the enlarged blocked set. Counters, position, heading and the previous node are untouched |
| `CarUpdate.AccidentPhase` | trafsim-master/src/trafficsim/Car.cpp:44-47 | the car is in an accident afterwards exactly when it was before or a first accident strikes now; the count advances by one exactly when one strikes; no node is ever unblocked; only the accident flag, speed and route of the car can change |
| `CarUpdate.PassWaypoint` | trafsim-master/src/trafficsim/Car.cpp:53-56 | arrival counts the node left once more, puts the car exactly on the waypoint, makes it the previous node, and leaves the route with only its front removed |
| `CarUpdate.Move` | trafsim-master/src/trafficsim/Car.cpp:75-76 | after the speed rule the car moves from where it was along its unchanged heading by the step times the new speed, and nothing else about it changes |
| `CarUpdate.Proceed` | trafsim-master/src/trafficsim/Car.cpp:49-76 | the arrival-and-move part of a tick never changes identity, origin, destination, length, acceleration, the accident flag, the accident count or the blocked set, and never clears `finished` |
| `CarUpdate.Tick` | trafsim-master/src/trafficsim/Car.cpp:35-77 | an empty route only sets `finished`. Identity, origin, destination, length and acceleration never change. `finished` and `inAccident` are never cleared. `inAccident` is set and the 32-bit count advances by one (wrapping to 0) exactly when a car with a route and no earlier accident detects a collision, and stays the same otherwise. Blocked nodes are never unblocked |
| `CarUpdate.TickKeepsSpeedBounded` | trafsim-master/src/trafficsim/Car.cpp:49-76 | with no negative time step, a tick keeps speed within [0, 200] and the acceleration at 200, including the tick where an accident zeroes the speed and the rule raises it again |
| `CarUpdate.TickAsWritten` | trafsim-master/src/trafficsim/Car.cpp:35-77 | the tick exactly as written either reads the front of an empty route, which can happen only in a tick whose accident check fires, or yields the same state as the corrected tick |
| `CarUpdate.AsWrittenFailsOnlyOnEmptyReroute` | trafsim-master/src/trafficsim/Car.cpp:44-57 | the tick as written reads the front of an empty route exactly when an accident's reroute comes back empty; wherever it is defined it equals the corrected tick |
| `CarUpdate.EmptyRerouteReadsEmptyFront` | trafsim-master/src/trafficsim/Car.cpp:50 | for two cars at one point heading the same way with no detour, the tick as written reads the front of an empty route, while the corrected tick leaves the route empty and the next tick finishes the car |
| `CarUpdate.AccidentTickPassesNoWaypoint` | trafsim-master/src/trafficsim/Car.cpp:44-56 | in a tick whose accident check fires, no waypoint is reached. The route is the reroute around the two newly blocked nodes. Previous node, counters, heading and `finished` are unchanged, the final speed is the rule applied from speed 0, so the same tick can accelerate again, and the car moves from where it was along its heading by the step times that speed |
| `CarUpdate.ArrivalPassesWaypoint` | trafsim-master/src/trafficsim/Car.cpp:50-72 | on arrival without an accident, the left node's counter rises by exactly one and no other counter changes, `prev` becomes the waypoint and the route loses exactly its front. If the route is then used up or the destination is within one step of the new front, the car finishes exactly on the waypoint with speed and heading untouched; otherwise it turns towards the new front and moves on from the waypoint, with the speed the rule yields for the turned car |
| `CarUpdate.NoArrivalKeepsRoute` | trafsim-master/src/trafficsim/Car.cpp:49-76 | without arrival and without an accident the route, the previous node and the shared world are unchanged, only speed and position change, and the new speed is the rule applied to the car as it was |
| `CarUpdate.TickConsumesFront` | trafsim-master/src/trafficsim/Car.cpp:50-56 | outside an accident tick the route stays the same or loses its first element, and it shrinks exactly when the car arrives |
| `CarUpdate.Update` | trafsim-master/src/trafficsim/Car.cpp:35-77 | the statement-by-statement update, using the loop-based accident check and speed rule, computes exactly the tick |
| `CarUpdate.ReachWaypoint` | trafsim-master/src/trafficsim/Car.cpp:53-71 | the arrival statements report the end exactly when the route had one waypoint or the destination is within one step of the second waypoint. The node left gains one passage and no other counter changes; the car rests on the first waypoint, which becomes `prev`, and the route keeps all but that waypoint; speed is unchanged. At the end the car is finished with its heading untouched; otherwise `finished` is untouched and the heading is the normalised direction from the first to the second waypoint |
| `CarUpdate.Advance` | trafsim-master/src/trafficsim/Car.cpp:49-76 | the statements from the arrival test to the move compute exactly the arrival-and-move part of the tick, on both sides of the arrival test |
| `CarUpdate.Arrive` | trafsim-master/src/trafficsim/Car.cpp:50-76 | on arrival, the statements that pass the waypoint, finish or turn, and then move compute exactly the arrival-and-move part of the tick |
| `CarUpdate.MoveAlong` | trafsim-master/src/trafficsim/Car.cpp:75-76 | the loop-based speed rule followed by the position update computes exactly the move of the functional tick |
| `CarUpdate.PairDetectionByLength` | trafsim-master/src/trafficsim/Car.cpp:139-157 | with symmetric distance and dot product, when one car detects another, the other detects it back exactly when their distance is also below a tenth of the other's own length |
| `CarUpdate.PairCountsTwoAccidents` | trafsim-master/src/trafficsim/Car.cpp:139-164 | with symmetric distance and dot product, two cars of equal length forming a rear-end pair, ticked against the same list, advance the 32-bit accident count twice |
| `Lifetime.InAccidentRaisesNothing` | trafsim-master/src/trafficsim/Car.cpp:44-47 | a car already in an accident never advances the accident count over any number of ticks |
| `Lifetime.RaisedAtMostOnce` | trafsim-master/src/trafficsim/Car.cpp:162-164 | over any sequence of ticks a car advances the accident count at most once |
| `Lifetime.FinishedStaysFinished` | trafsim-master/src/trafficsim/Car.hpp:25 | once `isFinished()` holds it holds after any further ticks |
| `Lifetime.FixedPartsNeverChange` | trafsim-master/src/trafficsim/Car.hpp:55 | identity, origin, destination, length and acceleration are the same after any number of ticks, reroutes included |
| `Lifetime.SpeedStaysBounded` | trafsim-master/src/trafficsim/Car.cpp:130 | with no negative time step, a car whose speed is within [0, 200] keeps it there through any number of ticks |
| `Lifetime.RouteConsumedFromFront` | trafsim-master/src/trafficsim/Car.hpp:59 | once a car has had its accident, its route after any number of ticks is a suffix of its route now |
| `Lifetime.NewCarLifetime` | trafsim-master/src/trafficsim/Car.cpp:15 | a newly built car advances the accident count at most once over its life, and its speed stays within [0, 200] when no time step is negative |

## Left out

- Drawing, textures and the random texture choice (`draw`, `AddTexture`, `Textures_`, `Rando`): presentation and randomness.
- The rotation chosen from the heading after a turn: presentation only, and it depends on exact float equality.
- Floating point: speeds, times and coordinates are reals, so `float` rounding is not modelled. The constants 0.1, 0.51 and 0.8 are exact reals rather than their `float` approximations.
- Vector distance, normalisation and dot product, rectangle containment, node positions, and the route search (`Node::search_AStar`) are not part of this model. They are the `Env` parameters. The route search gets the route list it writes into, since it is unknown whether it clears that list first.
- `Node::incrementCounter` and `Node::setBlocked` are modelled as a per-node count and a blocked set. The game-time stamp passed to the counter is dropped.
- `TrafficLightNetwork`, `canDrive` and `getBlocker` are not part of this model. Each light is its can-drive flag and its blocker rectangle. Networks are a list; their key order does not matter, since every hit yields speed 0.
- `hasRightOfWay`, `createAccidentGraphics`, `wait_timer_` and `accident_shape_` are declared but never defined. The commented-out deceleration code is not modelled.
- The population driver and the order in which cars are updated: the list of cars is a read-only snapshot given to one car's tick. A car's own entry in that list carries its bounds from the snapshot, whereas `ts::Car::calculateVelocity` reads the live shape, which a waypoint snap earlier in the same tick may have moved.
- The car's width is not modelled. Only the length (the footprint's `y` extent) enters the probes and the safety distance.
- The `prev_` null test in `handleAccident` is not modelled: `prev_` starts as the origin and is only ever set to route nodes, so it is never null.
- The static initialiser `accident_count_ = 0` has no separate member. The count lives in the `World` the driver passes in and starts from whatever value that world holds. It is a 32-bit unsigned value that wraps to 0.

## Findings

| source | as written | input that shows it | evidently intended | confidence | as-written member | corrected member |
|---|---|---|---|---|---|---|
| trafsim-master/src/trafficsim/Car.cpp:50 | after an accident, `update` reads `route_.front()` for the arrival test even when the reroute in `handleAccident` left `route_` empty | a car with a route, another car at distance 0 heading the same way, and a route search that finds no detour | skip the arrival test, so that the car with the empty route finishes on its next tick | medium, not executed: it depends on `search_AStar` leaving the route empty when there is no path | `CarUpdate.TickAsWritten`, exhibited by `CarUpdate.EmptyRerouteReadsEmptyFront` | `CarUpdate.Tick` |

=== FILE: car_update.dfy ===
/** One tick of a car: the empty-route exit, the accident check and its recovery,
    waypoint arrival, the speed rule and position integration. */
module CarUpdate {
  import opened Geometry
  import opened Roads
  import opened Vehicle
  import opened Hazards

  /** A car together with the shared world it reads and changes. */
  datatype State = State(car: Car, world: World)

  /** The tick's accident check fires: the car is not already in an accident and
      some other car collides with it. */
  predicate AccidentStrikes(c: Car, cars: seq<CarView>, env: Env)
  {
    !c.inAccident && Collides(c, cars, env)
  }

  /** Accident recovery: flag the car, stop it, count the accident, and when there is
      a front waypoint block the node left and that waypoint and search again. The
      search starts from the car's fixed origin, not from where the car is. */
  function HandleAccident(s: State, env: Env): (s': State)
    ensures s'.car.inAccident && s'.car.speed == 0.0
    ensures s'.world.accidentCount == CountUp(s.world.accidentCount)
    ensures s'.world.counters == s.world.counters
    ensures |s.car.route| > 0 ==>
              && s'.world.blocked == s.world.blocked + {s.car.prev, s.car.route[0]}
              && s'.car.route == env.findRoute(s.car.route, s.car.origin, s.car.dest, s'.world.blocked)
    ensures |s.car.route| == 0 ==> s'.world.blocked == s.world.blocked && s'.car.route == []
    ensures s'.car == s.car.(inAccident := true, speed := 0.0, route := s'.car.route)
  {
    var c := s.car.(inAccident := true, speed := 0.0);
    var w := s.world.(accidentCount := CountUp(s.world.accidentCount));
    if |c.route| > 0 then
      var w' := w.(blocked := w.blocked + {c.prev, c.route[0]});
      State(c.(route := env.findRoute(c.route, c.origin, c.dest, w'.blocked)), w')
    else
      State(c, w)
  }

  /** The accident phase of a tick: recovery runs only when the check fires. */
  function AccidentPhase(s: State, cars: seq<CarView>, env: Env): (s': State)
    ensures s'.car == s.car.(inAccident := s'.car.inAccident, speed := s'.car.speed, route := s'.car.route)
    ensures s'.car.inAccident <==> s.car.inAccident || AccidentStrikes(s.car, cars, env)
    ensures s'.world.accidentCount ==
              if AccidentStrikes(s.car, cars, env) then CountUp(s.world.accidentCount) else s.world.accidentCount
    ensures s.world.blocked <= s'.world.blocked
  {
    if AccidentStrikes(s.car, cars, env) then HandleAccident(s, env) else s
  }

  /** The car is within one step of its front waypoint. */
  predicate Arrives(c: Car, step: real, env: Env)
  {
    |c.route| > 0 && env.distance(c.position, env.nodePos(c.route[0])) < step
  }

  /** Arrival at the front waypoint: count the node left, snap onto the waypoint,
      make it the previous node and drop it from the route. */
  function PassWaypoint(s: State, env: Env): (s': State)
    requires |s.car.route| > 0
    ensures s'.world == Passed(s.world, s.car.prev)
    ensures s'.car.position == env.nodePos(s.car.route[0])
    ensures s'.car.prev == s.car.route[0]
    ensures [s.car.route[0]] + s'.car.route == s.car.route
    ensures s'.car == s.car.(position := s'.car.position, prev := s'.car.prev, route := s'.car.route)
  {
    var c := s.car;
    State(c.(position := env.nodePos(c.route[0]), prev := c.route[0], route := c.route[1..]),
          Passed(s.world, c.prev))
  }

  /** After a pop: the route is used up, or the destination is within one step of
      the new front waypoint. */
  predicate EndReached(c: Car, step: real, env: Env)
  {
    |c.route| == 0 || env.distance(env.nodePos(c.dest), env.nodePos(c.route[0])) < step
  }

  /** The heading from the previous node to the front waypoint. */
  function Turn(c: Car, env: Env): Car
    requires |c.route| > 0
  {
    c.(dir := env.normalize(Sub(env.nodePos(c.route[0]), env.nodePos(c.prev))))
  }

  /** The speed rule, then a move along the heading by `dt` times the new speed. */
  function Move(c: Car, dt: real, cars: seq<CarView>, lights: seq<seq<Light>>, env: Env): (c': Car)
    ensures c'.speed == Velocity(c, dt, cars, lights, env)
    ensures c'.position == Add(c.position, Scale(Scale(c.dir, dt), c'.speed))
    ensures c' == c.(speed := c'.speed, position := c'.position)
  {
    var v := Velocity(c, dt, cars, lights, env);
    c.(speed := v, position := Add(c.position, Scale(Scale(c.dir, dt), v)))
  }

  /** The part of a tick after the accident phase: the arrival test against the
      step computed from the current speed, then the speed rule and the move.
      The arrival test is skipped when the route is empty. */
  function Proceed(s: State, dt: real, cars: seq<CarView>, lights: seq<seq<Light>>, env: Env): (s': State)
    ensures s'.car.id == s.car.id && s'.car.origin == s.car.origin && s'.car.dest == s.car.dest
    ensures s'.car.length == s.car.length && s'.car.accel == s.car.accel
    ensures s'.car.inAccident == s.car.inAccident
    ensures s.car.finished ==> s'.car.finished
    ensures s'.world.accidentCount == s.world.accidentCount && s'.world.blocked == s.world.blocked
  {
    var step := dt * s.car.speed;
    if Arrives(s.car, step, env) then
      var s1 := PassWaypoint(s, env);
      if EndReached(s1.car, step, env) then State(s1.car.(finished := true), s1.world)
      else State(Move(Turn(s1.car, env), dt, cars, lights, env), s1.world)
    else
      State(Move(s.car, dt, cars, lights, env), s.world)
  }

  /** The tick's accident check fired on a car with a route. */
  predicate AccidentTick(c: Car, cars: seq<CarView>, env: Env)
  {
    |c.route| > 0 && AccidentStrikes(c, cars, env)
  }

  /** One tick of a car, with the arrival test guarded against an empty route. */
  function Tick(s: State, dt: real, cars: seq<CarView>, lights: seq<seq<Light>>, env: Env): (s': State)
    ensures |s.car.route| == 0 ==> s' == State(s.car.(finished := true), s.world)
    ensures s'.car.id == s.car.id && s'.car.origin == s.car.origin && s'.car.dest == s.car.dest
    ensures s'.car.length == s.car.length && s'.car.accel == s.car.accel
    ensures s.car.IsFinished() ==> s'.car.IsFinished()
    ensures s'.car.inAccident <==> s.car.inAccident || AccidentTick(s.car, cars, env)
    ensures s'.world.accidentCount ==
              if AccidentTick(s.car, cars, env) then CountUp(s.world.accidentCount) else s.world.accidentCount
    ensures s.world.blocked <= s'.world.blocked
  {
    if |s.car.route| == 0 then State(s.car.(finished := true), s.world)
    else Proceed(AccidentPhase(s, cars, env), dt, cars, lights, env)
  }

  /** With no negative time step a tick keeps speed within [0, MaxSpeed]: speed
      starts there, is only ever set to 0 or to the capped acceleration, and the
      acceleration is never negative. */
  lemma TickKeepsSpeedBounded(s: State, dt: real, cars: seq<CarView>, lights: seq<seq<Light>>, env: Env)
    requires Valid(s.car) && 0.0 <= dt
    ensures Valid(Tick(s, dt, cars, lights, env).car)
  {
    if |s.car.route| > 0 {
      var s1 := AccidentPhase(s, cars, env);
      assert Valid(s1.car);
      var step := dt * s1.car.speed;
      if Arrives(s1.car, step, env) {
        var s2 := PassWaypoint(s1, env);
        if !EndReached(s2.car, step, env) {
          VelocityBounds(Turn(s2.car, env), dt, cars, lights, env);
        }
      } else {
        VelocityBounds(s1.car, dt, cars, lights, env);
      }
    }
  }

  /** A tick as `ts::Car::update` is written can reach an undefined read. */
  datatype Outcome = Ticked(state: State) | FrontOfEmptyRoute

  /** One tick exactly as `ts::Car::update` orders it: the arrival test reads the front
      waypoint even when the reroute after an accident has left the route empty,
      which is undefined. */
  function TickAsWritten(s: State, dt: real, cars: seq<CarView>, lights: seq<seq<Light>>, env: Env): (r: Outcome)
    ensures r == FrontOfEmptyRoute ==> AccidentTick(s.car, cars, env)
    ensures r.Ticked? ==> r.state == Tick(s, dt, cars, lights, env)
  {
    if |s.car.route| == 0 then Ticked(State(s.car.(finished := true), s.world))
    else
      var s1 := AccidentPhase(s, cars, env);
      if |s1.car.route| == 0 then FrontOfEmptyRoute
      else Ticked(Proceed(s1, dt, cars, lights, env))
  }

  /** The tick as written goes wrong exactly when an accident's reroute finds no
      route, and wherever it is defined it agrees with `Tick`. */
  lemma AsWrittenFailsOnlyOnEmptyReroute(s: State, dt: real, cars: seq<CarView>, lights: seq<seq<Light>>, env: Env)
    ensures TickAsWritten(s, dt, cars, lights, env) == FrontOfEmptyRoute <==>
              && AccidentTick(s.car, cars, env)
              && env.findRoute(s.car.route, s.car.origin, s.car.dest,
                               s.world.blocked + {s.car.prev, s.car.route[0]}) == []
    ensures TickAsWritten(s, dt, cars, lights, env).Ticked? ==>
              TickAsWritten(s, dt, cars, lights, env).state == Tick(s, dt, cars, lights, env)
  {
  }

  /** A concrete input on which the tick as written reads the front of an empty
      route: two cars on top of each other heading the same way, and no detour. The
      corrected tick leaves the route empty instead, and the next tick finishes the
      car. */
  lemma EmptyRerouteReadsEmptyFront()
    ensures
      var env := Env((a, b) => 0.0, (a, b) => 1.0, a => a, (r, p) => false,
                     n => Zero, (r, o, d, b) => []);
      var me := Car(0, 0, 2, 0, [1, 2], Zero, Vec(1.0, 0.0), 200.0, 200.0, 10.0, false, false);
      var other := CarView(1, Rect(0.0, 0.0, 1.0, 1.0), Zero, Vec(1.0, 0.0));
      var s := State(me, World({}, map[], 0));
      && TickAsWritten(s, 0.1, [other], [], env) == FrontOfEmptyRoute
      && Tick(s, 0.1, [other], [], env).car.route == []
      && Tick(Tick(s, 0.1, [other], [], env), 0.1, [other], [], env).car.IsFinished()
  {
    var env := Env((a, b) => 0.0, (a, b) => 1.0, a => a, (r, p) => false,
                   n => Zero, (r, o, d, b) => []);
    var me := Car(0, 0, 2, 0, [1, 2], Zero, Vec(1.0, 0.0), 200.0, 200.0, 10.0, false, false);
    var other := CarView(1, Rect(0.0, 0.0, 1.0, 1.0), Zero, Vec(1.0, 0.0));
    assert Collision(me, other, env);
    assert [other][0] == other;
  }

  /** In a tick whose accident check fires, speed is 0 when the step is computed, so
      no waypoint is reached: the route is the reroute from the origin around the two
      newly blocked nodes, and the previous node, the counters, the heading and the
      finished flag stay as they were; the speed rule then runs from speed 0 and the
      car moves from where it was. */
  lemma AccidentTickPassesNoWaypoint(s: State, dt: real, cars: seq<CarView>, lights: seq<seq<Light>>, env: Env)
    requires AccidentTick(s.car, cars, env)
    ensures var s' := Tick(s, dt, cars, lights, env);
            && s'.car.route == env.findRoute(s.car.route, s.car.origin, s.car.dest,
                                             s.world.blocked + {s.car.prev, s.car.route[0]})
            && s'.world.blocked == s.world.blocked + {s.car.prev, s.car.route[0]}
            && s'.car.prev == s.car.prev
            && s'.world.counters == s.world.counters
            && s'.car.dir == s.car.dir
            && s'.car.finished == s.car.finished
            && s'.car.speed == Velocity(s.car.(speed := 0.0), dt, cars, lights, env)
            && s'.car.position == Add(s.car.position, Scale(Scale(s.car.dir, dt), s'.car.speed))
  {
    var s1 := HandleAccident(s, env);
    assert !Arrives(s1.car, dt * s1.car.speed, env);
  }

  /** Arrival at the front waypoint in a tick without an accident: the node left is
      counted once more and no other node is, the previous node becomes the waypoint,
      the route loses exactly its front. If the route is then used up or the
      destination is within one step, the car finishes resting exactly on the
      waypoint with its speed and heading untouched; otherwise it turns towards the
      new front, applies the speed rule there and moves on from the waypoint. */
  lemma ArrivalPassesWaypoint(s: State, dt: real, cars: seq<CarView>, lights: seq<seq<Light>>, env: Env)
    requires |s.car.route| > 0 && !AccidentStrikes(s.car, cars, env)
    requires Arrives(s.car, dt * s.car.speed, env)
    ensures var s' := Tick(s, dt, cars, lights, env);
            var w := s.car.route[0];
            && s'.world.Passages(s.car.prev) == s.world.Passages(s.car.prev) + 1
            && (forall n :: n != s.car.prev ==> s'.world.Passages(n) == s.world.Passages(n))
            && s'.world.blocked == s.world.blocked
            && s'.world.accidentCount == s.world.accidentCount
            && s'.car.prev == w
            && s'.car.route == s.car.route[1..]
            && (if |s.car.route| == 1
                   || env.distance(env.nodePos(s.car.dest), env.nodePos(s.car.route[1])) < dt * s.car.speed
                then
                  && s'.car.finished
                  && s'.car.position == env.nodePos(w)
                  && s'.car.speed == s.car.speed
                  && s'.car.dir == s.car.dir
                else
                  && s'.car.finished == s.car.finished
                  && s'.car.dir == env.normalize(Sub(env.nodePos(s.car.route[1]), env.nodePos(w)))
                  && s'.car.speed == Velocity(Turn(PassWaypoint(s, env).car, env), dt, cars, lights, env)
                  && s'.car.position == Add(env.nodePos(w), Scale(Scale(s'.car.dir, dt), s'.car.speed)))
  {
    var s1 := PassWaypoint(s, env);
    assert s1.car.route == s.car.route[1..];
  }

  /** Without arrival and without an accident the route, the previous node and the
      shared world are untouched; speed becomes what the speed rule yields and the
      car moves along its heading by that speed. */
  lemma NoArrivalKeepsRoute(s: State, dt: real, cars: seq<CarView>, lights: seq<seq<Light>>, env: Env)
    requires |s.car.route| > 0 && !AccidentStrikes(s.car, cars, env)
    requires !Arrives(s.car, dt * s.car.speed, env)
    ensures var s' := Tick(s, dt, cars, lights, env);
            && s'.car.route == s.car.route
            && s'.car.prev == s.car.prev
            && s'.world == s.world
            && s'.car == s.car.(speed := s'.car.speed, position := s'.car.position)
            && s'.car.speed == Velocity(s.car, dt, cars, lights, env)
            && s'.car.position == Add(s.car.position, Scale(Scale(s.car.dir, dt), s'.car.speed))
  {
  }

  /** Outside an accident tick the route is only ever consumed from the front: it
      is unchanged or loses its first element, and it shrinks exactly when the car
      arrives at its front waypoint. */
  lemma TickConsumesFront(s: State, dt: real, cars: seq<CarView>, lights: seq<seq<Light>>, env: Env)
    requires !AccidentTick(s.car, cars, env)
    ensures var r := Tick(s, dt, cars, lights, env).car.route;
            && (r == s.car.route || (|s.car.route| > 0 && r == s.car.route[1..]))
            && (|r| < |s.car.route| <==> Arrives(s.car, dt * s.car.speed, env))
  {
    if |s.car.route| > 0 {
      if Arrives(s.car, dt * s.car.speed, env) {
        ArrivalPassesWaypoint(s, dt, cars, lights, env);
      } else {
        NoArrivalKeepsRoute(s, dt, cars, lights, env);
      }
    }
  }

  /** The corrected tick (see `TickAsWritten`) statement by statement, in the order of
      `ts::Car::update`, using the loop-based accident check and speed rule. Accident
      recovery is the function `HandleAccident`. */
  method Update(s: State, dt: real, cars: seq<CarView>, lights: seq<seq<Light>>, env: Env)
    returns (s': State)
    ensures s' == Tick(s, dt, cars, lights, env)
  {
    var c := s.car;
    var w := s.world;
    if |c.route| < 1 {
      c := c.(finished := true);
      return State(c, w);
    }
    if !c.inAccident {
      var hit := CheckAccident(c, cars, env);
      if hit {
        var h := HandleAccident(State(c, w), env);
        c, w := h.car, h.world;
      }
    }
    assert State(c, w) == AccidentPhase(s, cars, env);
    s' := Advance(State(c, w), dt, cars, lights, env);
  }

  /** The rest of the corrected tick, statement by statement: the arrival test against
      the step computed from the current speed, guarded by a non-empty route as the
      corrected tick requires, then arrival or the plain move. */
  method Advance(s: State, dt: real, cars: seq<CarView>, lights: seq<seq<Light>>, env: Env)
    returns (s': State)
    ensures s' == Proceed(s, dt, cars, lights, env)
  {
    var deltaStep := dt * s.car.speed;
    if |s.car.route| > 0 && env.distance(s.car.position, env.nodePos(s.car.route[0])) < deltaStep {
      s' := Arrive(s, dt, cars, lights, env);
    } else {
      assert !Arrives(s.car, deltaStep, env);
      ProceedWithoutArrival(s, dt, cars, lights, env);
      var c := MoveAlong(s.car, dt, cars, lights, env);
      s' := State(c, s.world);
    }
  }

  /** Without arrival, the rest of the tick is the plain move. */
  lemma ProceedWithoutArrival(s: State, dt: real, cars: seq<CarView>, lights: seq<seq<Light>>, env: Env)
    requires !Arrives(s.car, dt * s.car.speed, env)
    ensures Proceed(s, dt, cars, lights, env) == State(Move(s.car, dt, cars, lights, env), s.world)
  {
    var step := dt * s.car.speed;
    assert !Arrives(s.car, step, env);
  }

  /** On arrival, the rest of the tick is the pop and then either the finish or the
      turn and move. */
  lemma ProceedOnArrival(s: State, dt: real, cars: seq<CarView>, lights: seq<seq<Light>>, env: Env)
    requires Arrives(s.car, dt * s.car.speed, env)
    ensures var p := PassWaypoint(s, env);
            Proceed(s, dt, cars, lights, env) ==
              if EndReached(p.car, dt * s.car.speed, env) then State(p.car.(finished := true), p.world)
              else State(Move(Turn(p.car, env), dt, cars, lights, env), p.world)
  {
    var step := dt * s.car.speed;
    assert Arrives(s.car, step, env);
  }

  /** Arrival, then, unless the car finished there, the move from the waypoint. */
  method Arrive(s: State, dt: real, cars: seq<CarView>, lights: seq<seq<Light>>, env: Env)
    returns (s': State)
    requires Arrives(s.car, dt * s.car.speed, env)
    ensures s' == Proceed(s, dt, cars, lights, env)
  {
    ProceedOnArrival(s, dt, cars, lights, env);
    var s1, done := ReachWaypoint(s, dt * s.car.speed, env);
    if done {
      return s1;
    }
    var c := MoveAlong(s1.car, dt, cars, lights, env);
    s' := State(c, s1.world);
  }

  /** The speed rule through the loops of `ts::Car::calculateVelocity`, then the move along the heading. */
  method MoveAlong(c: Car, dt: real, cars: seq<CarView>, lights: seq<seq<Light>>, env: Env) returns (c': Car)
    ensures c' == Move(c, dt, cars, lights, env)
  {
    var v := CalculateVelocity(c, dt, cars, lights, env);
    c' := c.(speed := v);
    c' := c'.(position := Add(c'.position, Scale(Scale(c'.dir, dt), c'.speed)));
  }

  /** Arrival as `ts::Car::update` runs it: count, snap, pop, then either finish or
      turn towards the new front waypoint. The car finishes exactly when the waypoint
      reached was the last one or the destination is within one step of the next;
      it then rests on the waypoint with its heading unchanged. Otherwise it heads
      from the waypoint towards the next one. */
  method ReachWaypoint(s: State, deltaStep: real, env: Env) returns (s': State, done: bool)
    requires |s.car.route| > 0
    ensures done <==> |s.car.route| == 1
                      || env.distance(env.nodePos(s.car.dest), env.nodePos(s.car.route[1])) < deltaStep
    ensures s'.world.Passages(s.car.prev) == s.world.Passages(s.car.prev) + 1
    ensures forall n :: n != s.car.prev ==> s'.world.Passages(n) == s.world.Passages(n)
    ensures s'.car.prev == s.car.route[0] && s'.car.route == s.car.route[1..]
    ensures s'.car.position == env.nodePos(s.car.route[0])
    ensures s'.car.speed == s.car.speed
    ensures done ==> s'.car.finished && s'.car.dir == s.car.dir
    ensures !done ==> s'.car.finished == s.car.finished
                      && s'.car.dir == env.normalize(Sub(env.nodePos(s.car.route[1]), env.nodePos(s.car.route[0])))
    ensures var p := PassWaypoint(s, env);
            && (done <==> EndReached(p.car, deltaStep, env))
            && (done ==> s' == State(p.car.(finished := true), p.world))
            && (!done ==> s' == State(Turn(p.car, env), p.world))
  {
    var c := s.car;
    var w := Passed(s.world, c.prev);
    c := c.(position := env.nodePos(c.route[0]));
    c := c.(prev := c.route[0]);
    c := c.(route := c.route[1..]);
    assert State(c, w) == PassWaypoint(s, env);
    if |c.route| < 1 || env.distance(env.nodePos(c.dest), env.nodePos(c.route[0])) < deltaStep {
      c := c.(finished := true);
      return State(c, w), true;
    }
    c := c.(dir := env.normalize(Sub(env.nodePos(c.route[0]), env.nodePos(c.prev))));
    return State(c, w), false;
  }

  /** What a car shows the others in the shared list. */
  function View(c: Car, bounds: Rect): CarView
  {
    CarView(c.id, bounds, c.position, c.dir)
  }

  /** Each car of a pair measures the gap against a tenth of its own length: when `a`
      detects `b`, `b` detects `a` exactly when the gap is also below a tenth of
      `b`'s length. */
  lemma PairDetectionByLength(a: Car, b: Car, boundsA: Rect, boundsB: Rect, env: Env)
    requires forall p, q :: env.distance(p, q) == env.distance(q, p)
    requires forall p, q :: env.dot(p, q) == env.dot(q, p)
    requires Collision(a, View(b, boundsB), env)
    ensures Collision(b, View(a, boundsA), env) <==>
              env.distance(a.position, b.position) < b.length * SafeDistanceFactor
  {
  }

  /** With a symmetric distance and dot product, two cars of equal length forming a
      rear-end pair both detect the accident against the same list, so ticking one
      after the other advances the accident count twice, not once. */
  lemma PairCountsTwoAccidents(a: Car, b: Car, boundsA: Rect, boundsB: Rect, w: World, dt: real,
                               lights: seq<seq<Light>>, env: Env)
    requires forall p, q :: env.distance(p, q) == env.distance(q, p)
    requires forall p, q :: env.dot(p, q) == env.dot(q, p)
    requires a.id != b.id && a.length == b.length
    requires |a.route| > 0 && |b.route| > 0 && !a.inAccident && !b.inAccident
    requires Collision(a, View(b, boundsB), env)
    ensures var cars := [View(a, boundsA), View(b, boundsB)];
            var w1 := Tick(State(a, w), dt, cars, lights, env).world;
            Tick(State(b, w1), dt, cars, lights, env).world.accidentCount == CountUp(CountUp(w.accidentCount))
  {
    var cars := [View(a, boundsA), View(b, boundsB)];
    assert Collision(a, cars[1], env);
    assert env.distance(b.position, a.position) == env.distance(a.position, b.position);
    assert env.dot(b.dir, a.dir) == env.dot(a.dir, b.dir);
    assert Collision(b, cars[0], env);
  }
}

=== FILE: geometry.dfy ===
/** Plane geometry the car works in. Positions and directions are pairs of reals.
    The vector arithmetic a car performs itself is written out here; distance, dot
    product, normalisation and rectangle containment belong to collaborators and are
    supplied by the caller (see `Roads.Env`). */
module Geometry {

  /** A 2D vector: a position on the road plane or a heading. */
  datatype Vec = Vec(x: real, y: real)

  function Add(a: Vec, b: Vec): Vec
  {
    Vec(a.x + b.x, a.y + b.y)
  }

  function Sub(a: Vec, b: Vec): Vec
  {
    Vec(a.x - b.x, a.y - b.y)
  }

  function Scale(a: Vec, k: real): Vec
  {
    Vec(a.x * k, a.y * k)
  }

  /** The zero vector, which is a default-initialised direction. */
  const Zero: Vec := Vec(0.0, 0.0)

  /** An axis-aligned rectangle, as a shape's global bounds or a light's blocker. */
  datatype Rect = Rect(left: real, top: real, width: real, height: real)

  /** A distance: the one fact assumed about the distance collaborator. */
  type NonNeg = r: real | 0.0 <= r

  /** The smaller of two reals, preferring `a` on a tie. */
  function Min(a: real, b: real): (m: real)
    ensures m <= a && m <= b
    ensures m == a || m == b
  {
    if b < a then b else a
  }
}

=== FILE: hazards.dfy ===
/** What a car looks for ahead of and around itself: the two probe points in front
    of it, the speed rule those probes drive, and rear-end accident detection. */
module Hazards {
  import opened Geometry
  import opened Roads
  import opened Vehicle

  /** Fraction of the car's length at which the nearer probe sits. */
  const NearProbeFactor: real := 0.51
  /** Fraction of the car's length below which another car is too close. */
  const SafeDistanceFactor: real := 0.1
  /** Dot product of headings above which two cars count as driving the same way. */
  const SameWayDot: real := 0.8

  /** The lookahead probe, one car length ahead of the centre. */
  function FarProbe(c: Car): Vec
  {
    Add(c.position, Scale(c.dir, c.length))
  }

  /** The front-bumper probe, just past half a car length ahead of the centre. */
  function NearProbe(c: Car): Vec
  {
    Add(c.position, Scale(Scale(c.dir, c.length), NearProbeFactor))
  }

  /** Region `r` contains either probe of `c`. */
  predicate Covers(env: Env, r: Rect, c: Car)
  {
    env.contains(r, FarProbe(c)) || env.contains(r, NearProbe(c))
  }

  /** Some car of the list, this car's own entry included, covers a probe. */
  predicate CarAhead(c: Car, cars: seq<CarView>, env: Env)
  {
    exists k :: 0 <= k < |cars| && Covers(env, cars[k].bounds, c)
  }

  /** A light that forbids passage and whose blocker covers a probe. */
  predicate StopsAt(env: Env, light: Light, c: Car)
  {
    !light.canDrive && Covers(env, light.blocker, c)
  }

  /** Some light of some network stops the car. */
  predicate LightAhead(c: Car, lights: seq<seq<Light>>, env: Env)
  {
    exists n, j :: 0 <= n < |lights| && 0 <= j < |lights[n]| && StopsAt(env, lights[n][j], c)
  }

  /** The speed rule: stop for a car ahead, otherwise stop for a red light ahead,
      otherwise accelerate up to the cap. */
  function Velocity(c: Car, dt: real, cars: seq<CarView>, lights: seq<seq<Light>>, env: Env): (v: real)
    ensures v <= MaxSpeed
  {
    if CarAhead(c, cars, env) then 0.0
    else if LightAhead(c, lights, env) then 0.0
    else Min(c.speed + c.accel * dt, MaxSpeed)
  }

  /** The speed rule never yields more than the cap, and never a negative speed
      when speed, acceleration and the time step are not negative. */
  lemma VelocityBounds(c: Car, dt: real, cars: seq<CarView>, lights: seq<seq<Light>>, env: Env)
    ensures Velocity(c, dt, cars, lights, env) <= MaxSpeed
    ensures 0.0 <= c.speed && 0.0 <= c.accel && 0.0 <= dt ==> 0.0 <= Velocity(c, dt, cars, lights, env)
  {
    if 0.0 <= c.accel && 0.0 <= dt {
      assert 0.0 <= c.accel * dt;
    }
  }

  /** The speed rule as `ts::Car::calculateVelocity` evaluates it: cars first, then every light of
      every network, returning at the first hit. */
  method CalculateVelocity(c: Car, dt: real, cars: seq<CarView>, lights: seq<seq<Light>>, env: Env)
    returns (v: real)
    ensures v == Velocity(c, dt, cars, lights, env)
    ensures CarAhead(c, cars, env) ==> v == 0.0
    ensures LightAhead(c, lights, env) ==> v == 0.0
    ensures !CarAhead(c, cars, env) && !LightAhead(c, lights, env) ==>
              v == Min(c.speed + c.accel * dt, MaxSpeed)
  {
    var far := FarProbe(c);
    var near := NearProbe(c);
    var i := 0;
    while i < |cars|
      invariant 0 <= i <= |cars|
      invariant forall k :: 0 <= k < i ==> !Covers(env, cars[k].bounds, c)
    {
      if env.contains(cars[i].bounds, far) {
        return 0.0;
      }
      if env.contains(cars[i].bounds, near) {
        return 0.0;
      }
      i := i + 1;
    }
    var n := 0;
    while n < |lights|
      invariant 0 <= n <= |lights|
      invariant forall a, b :: 0 <= a < n && 0 <= b < |lights[a]| ==> !StopsAt(env, lights[a][b], c)
    {
      var j := 0;
      while j < |lights[n]|
        invariant 0 <= j <= |lights[n]|
        invariant forall b :: 0 <= b < j ==> !StopsAt(env, lights[n][b], c)
      {
        var light := lights[n][j];
        if !light.canDrive {
          if env.contains(light.blocker, far) {
            return 0.0;
          }
          if env.contains(light.blocker, near) {
            return 0.0;
          }
        }
        j := j + 1;
      }
      n := n + 1;
    }
    v := Min(c.speed + c.accel * dt, MaxSpeed);
  }

  /** The lights of each network that currently forbid passage. */
  function RedLights(network: seq<Light>): (reds: seq<Light>)
    ensures forall j :: 0 <= j < |reds| ==> !reds[j].canDrive
    ensures |reds| <= |network|
  {
    if |network| == 0 then []
    else if network[0].canDrive then RedLights(network[1..])
    else [network[0]] + RedLights(network[1..])
  }

  function RedOnly(lights: seq<seq<Light>>): (r: seq<seq<Light>>)
    ensures |r| == |lights|
    ensures forall n :: 0 <= n < |r| ==> r[n] == RedLights(lights[n])
  {
    seq(|lights|, n requires 0 <= n < |lights| => RedLights(lights[n]))
  }

  /** Some light of one network stops the car. */
  predicate NetworkStops(c: Car, network: seq<Light>, env: Env)
  {
    exists j :: 0 <= j < |network| && StopsAt(env, network[j], c)
  }

  lemma {:induction false} RedLightsStop(c: Car, network: seq<Light>, env: Env)
    ensures NetworkStops(c, network, env) <==> NetworkStops(c, RedLights(network), env)
    decreases |network|
  {
    if |network| > 0 {
      var rest := network[1..];
      var reds := RedLights(network);
      RedLightsStop(c, rest, env);
      if NetworkStops(c, network, env) {
        var j :| 0 <= j < |network| && StopsAt(env, network[j], c);
        if j > 0 {
          assert StopsAt(env, rest[j - 1], c);
          assert NetworkStops(c, rest, env);
          var j' :| 0 <= j' < |RedLights(rest)| && StopsAt(env, RedLights(rest)[j'], c);
          if network[0].canDrive {
            assert reds == RedLights(rest);
          } else {
            assert reds[j' + 1] == RedLights(rest)[j'];
          }
        } else {
          assert reds[0] == network[0];
        }
      }
      if NetworkStops(c, reds, env) {
        var j :| 0 <= j < |reds| && StopsAt(env, reds[j], c);
        if network[0].canDrive {
          assert NetworkStops(c, RedLights(rest), env);
          var k :| 0 <= k < |rest| && StopsAt(env, rest[k], c);
          assert network[k + 1] == rest[k];
        } else if j == 0 {
          assert network[0] == reds[0];
        } else {
          assert StopsAt(env, RedLights(rest)[j - 1], c);
          var k :| 0 <= k < |rest| && StopsAt(env, rest[k], c);
          assert network[k + 1] == rest[k];
        }
      }
    }
  }

  /** Lights that allow passage never stop a car: dropping them from every network
      leaves the speed rule's result unchanged. */
  lemma {:induction false} GreenLightsNeverStop(c: Car, dt: real, cars: seq<CarView>, lights: seq<seq<Light>>, env: Env)
    ensures Velocity(c, dt, cars, lights, env) == Velocity(c, dt, cars, RedOnly(lights), env)
  {
    var reds := RedOnly(lights);
    if LightAhead(c, lights, env) {
      var n, j :| 0 <= n < |lights| && 0 <= j < |lights[n]| && StopsAt(env, lights[n][j], c);
      assert NetworkStops(c, lights[n], env);
      RedLightsStop(c, lights[n], env);
      var j' :| 0 <= j' < |reds[n]| && StopsAt(env, reds[n][j'], c);
      assert LightAhead(c, reds, env);
    }
    if LightAhead(c, reds, env) {
      var n, j :| 0 <= n < |reds| && 0 <= j < |reds[n]| && StopsAt(env, reds[n][j], c);
      assert NetworkStops(c, RedLights(lights[n]), env);
      RedLightsStop(c, lights[n], env);
      var j' :| 0 <= j' < |lights[n]| && StopsAt(env, lights[n][j'], c);
      assert LightAhead(c, lights, env);
    }
  }

  /** `other` is a different car, closer than a tenth of this car's length, and
      heading nearly the same way. */
  predicate Collision(c: Car, other: CarView, env: Env)
  {
    && other.id != c.id
    && env.distance(c.position, other.position) < c.length * SafeDistanceFactor
    && env.dot(c.dir, other.dir) > SameWayDot
  }

  /** Some car of the list collides with `c`. */
  predicate Collides(c: Car, cars: seq<CarView>, env: Env)
  {
    exists k :: 0 <= k < |cars| && Collision(c, cars[k], env)
  }

  /** Accident detection as `ts::Car::checkAccident` runs it: skip this car's own entry, then
      report the first car that is both too close and heading the same way. */
  method CheckAccident(c: Car, cars: seq<CarView>, env: Env) returns (hit: bool)
    ensures hit <==> Collides(c, cars, env)
  {
    var minSafeDistance := c.length * SafeDistanceFactor;
    var i := 0;
    while i < |cars|
      invariant 0 <= i <= |cars|
      invariant forall k :: 0 <= k < i ==> !Collision(c, cars[k], env)
    {
      if cars[i].id == c.id {
        i := i + 1;
        continue;
      }
      var distance := env.distance(c.position, cars[i].position);
      if distance < minSafeDistance {
        if env.dot(c.dir, cars[i].dir) > SameWayDot {
          return true;
        }
      }
      i := i + 1;
    }
    return false;
  }

  /** The car's own entry never decides accident detection: inserting an entry with
      its identity anywhere in the list, whatever bounds, position and heading that
      entry carries, leaves the verdict unchanged. */
  lemma {:induction false} OwnEntryIgnored(c: Car, cars: seq<CarView>, i: nat, own: CarView, env: Env)
    requires i <= |cars| && own.id == c.id
    ensures Collides(c, cars[..i] + [own] + cars[i..], env) <==> Collides(c, cars, env)
  {
    var all := cars[..i] + [own] + cars[i..];
    if Collides(c, all, env) {
      var k :| 0 <= k < |all| && Collision(c, all[k], env);
      if k < i {
        assert all[k] == cars[k];
      } else {
        assert k != i;
        assert all[k] == cars[k - 1];
      }
    }
    if Collides(c, cars, env) {
      var k :| 0 <= k < |cars| && Collision(c, cars[k], env);
      if k < i {
        assert all[k] == cars[k];
      } else {
        assert all[k + 1] == cars[k];
      }
    }
  }
}

=== FILE: lifetime.dfy ===
/** A car over its whole life: a sequence of ticks, each run against the shared world
    as the frame finds it, since other cars may change that world between two ticks
    of this one. */
module Lifetime {
  import opened Roads
  import opened Vehicle
  import opened CarUpdate

  /** What one frame hands a car: elapsed time, the shared world as it stands, the
      list of all cars, and the light networks. */
  datatype Frame = Frame(dt: real, world: World, cars: seq<CarView>, lights: seq<seq<Light>>)

  function Step(c: Car, f: Frame, env: Env): State
  {
    Tick(State(c, f.world), f.dt, f.cars, f.lights, env)
  }

  /** The car after ticking through every frame in order. */
  function Drive(c: Car, frames: seq<Frame>, env: Env): Car
    decreases |frames|
  {
    if |frames| == 0 then c
    else Drive(Step(c, frames[0], env).car, frames[1..], env)
  }

  /** How many increments of the accident count this car's ticks perform over the
      frames. */
  function Raised(c: Car, frames: seq<Frame>, env: Env): nat
    decreases |frames|
  {
    if |frames| == 0 then 0
    else
      var f := frames[0];
      (if AccidentTick(c, f.cars, env) then 1 else 0) + Raised(Step(c, f, env).car, frames[1..], env)
  }

  /** `a` is what remains of `b` after dropping some elements from its front. */
  predicate IsSuffix(a: seq<NodeId>, b: seq<NodeId>)
  {
    exists k :: 0 <= k <= |b| && a == b[k..]
  }

  lemma {:induction false} InAccidentRaisesNothing(c: Car, frames: seq<Frame>, env: Env)
    requires c.inAccident
    ensures Raised(c, frames, env) == 0
    decreases |frames|
  {
    if |frames| > 0 {
      InAccidentRaisesNothing(Step(c, frames[0], env).car, frames[1..], env);
    }
  }

  /** The accident handler runs at most once per car: over any sequence of ticks a
      car adds at most one to the accident count, and none once it is in an
      accident. */
  lemma {:induction false} RaisedAtMostOnce(c: Car, frames: seq<Frame>, env: Env)
    ensures Raised(c, frames, env) <= if c.inAccident then 0 else 1
    decreases |frames|
  {
    if |frames| > 0 {
      var s := Step(c, frames[0], env);
      if c.inAccident || s.car.inAccident {
        InAccidentRaisesNothing(s.car, frames[1..], env);
      } else {
        RaisedAtMostOnce(s.car, frames[1..], env);
      }
    }
  }

  /** Once finished, a car stays finished, whatever further ticks it gets. */
  lemma {:induction false} FinishedStaysFinished(c: Car, frames: seq<Frame>, env: Env)
    requires c.IsFinished()
    ensures Drive(c, frames, env).IsFinished()
    decreases |frames|
  {
    if |frames| > 0 {
      FinishedStaysFinished(Step(c, frames[0], env).car, frames[1..], env);
    }
  }

  /** Identity, origin, destination, length and acceleration never change, through
      reroutes included. */
  lemma {:induction false} FixedPartsNeverChange(c: Car, frames: seq<Frame>, env: Env)
    ensures var d := Drive(c, frames, env);
            && d.id == c.id && d.origin == c.origin && d.dest == c.dest
            && d.length == c.length && d.accel == c.accel
    decreases |frames|
  {
    if |frames| > 0 {
      FixedPartsNeverChange(Step(c, frames[0], env).car, frames[1..], env);
    }
  }

  /** With no negative time step, speed stays within [0, MaxSpeed] for a car's
      whole life, starting from how it is built. */
  lemma {:induction false} SpeedStaysBounded(c: Car, frames: seq<Frame>, env: Env)
    requires Valid(c)
    requires forall i :: 0 <= i < |frames| ==> 0.0 <= frames[i].dt
    ensures Valid(Drive(c, frames, env))
    ensures 0.0 <= Drive(c, frames, env).speed <= MaxSpeed
    decreases |frames|
  {
    if |frames| > 0 {
      assert 0.0 <= frames[0].dt;
      TickKeepsSpeedBounded(State(c, frames[0].world), frames[0].dt, frames[0].cars, frames[0].lights, env);
      SpeedStaysBounded(Step(c, frames[0], env).car, frames[1..], env);
    }
  }

  /** Once the one accident has happened, no further reroute can occur, so from
      then on the route is only consumed from its front. */
  lemma {:induction false} RouteConsumedFromFront(c: Car, frames: seq<Frame>, env: Env)
    requires c.inAccident
    ensures IsSuffix(Drive(c, frames, env).route, c.route)
    decreases |frames|
  {
    if |frames| == 0 {
      assert c.route == c.route[0..];
    } else {
      var f := frames[0];
      var s := Step(c, f, env);
      TickConsumesFront(State(c, f.world), f.dt, f.cars, f.lights, env);
      RouteConsumedFromFront(s.car, frames[1..], env);
      var d := Drive(c, frames, env);
      var k :| 0 <= k <= |s.car.route| && d.route == s.car.route[k..];
      if s.car.route == c.route {
        assert d.route == c.route[k..];
      } else {
        assert d.route == c.route[k + 1..];
      }
    }
  }

  /** A car fresh from construction is in at most one accident in its whole life,
      and with no negative time step its speed never leaves [0, MaxSpeed]. */
  lemma NewCarLifetime(id: CarId, origin: NodeId, dest: NodeId, length: real, w: World,
                       frames: seq<Frame>, env: Env)
    ensures Raised(NewCar(id, origin, dest, length, w, env), frames, env) <= 1
    ensures (forall i :: 0 <= i < |frames| ==> 0.0 <= frames[i].dt) ==>
              0.0 <= Drive(NewCar(id, origin, dest, length, w, env), frames, env).speed <= MaxSpeed
  {
    var c := NewCar(id, origin, dest, length, w, env);
    RaisedAtMostOnce(c, frames, env);
    if forall i :: 0 <= i < |frames| ==> 0.0 <= frames[i].dt {
      SpeedStaysBounded(c, frames, env);
    }
  }
}

=== FILE: roads.dfy ===
/** The road network as a car sees it: node identities, the state the cars share
    (blocked nodes, passage counters, the accident count), traffic lights, and the
    collaborators whose code is not part of this model. */
module Roads {
  import opened Geometry

  /** A road node, referred to by identity. */
  type NodeId = nat

  /** One traffic light: whether it lets cars through now, and the region it guards. */
  datatype Light = Light(canDrive: bool, blocker: Rect)

  /** The accident count is a 32-bit unsigned integer, so it counts modulo 2^32. */
  const CountModulus: nat := 0x1_0000_0000

  type Count32 = n: nat | n < CountModulus

  /** One more accident: the unsigned increment, wrapping from 2^32 - 1 to 0. */
  function CountUp(n: Count32): (r: Count32)
    ensures n + 1 < CountModulus ==> r == n + 1
    ensures n + 1 == CountModulus ==> r == 0
  {
    (n + 1) % CountModulus
  }

  /** State shared by every car: the nodes marked blocked, how many cars have passed
      each node, and the process-wide accident count. */
  datatype World = World(blocked: set<NodeId>, counters: map<NodeId, nat>, accidentCount: Count32)
  {
    /** How many cars have left node `n`; a node never passed counts 0. */
    function Passages(n: NodeId): nat
    {
      if n in counters then counters[n] else 0
    }
  }

  /** Record that a car has just left node `n`. */
  function Passed(w: World, n: NodeId): (w': World)
    ensures w'.Passages(n) == w.Passages(n) + 1
    ensures forall m :: m != n ==> w'.Passages(m) == w.Passages(m)
    ensures w'.blocked == w.blocked && w'.accidentCount == w.accidentCount
  {
    w.(counters := w.counters[n := w.Passages(n) + 1])
  }

  /** The collaborators a car consults: vector distance (never negative), dot product,
      normalisation, rectangle containment, node positions, and the route search,
      which takes the route list it writes into, the origin, the destination and the
      set of blocked nodes. */
  datatype Env = Env(
    distance: (Vec, Vec) -> NonNeg,
    dot: (Vec, Vec) -> real,
    normalize: Vec -> Vec,
    contains: (Rect, Vec) -> bool,
    nodePos: NodeId -> Vec,
    findRoute: (seq<NodeId>, NodeId, NodeId, set<NodeId>) -> seq<NodeId>)
}

=== FILE: vehicle.dfy ===
/** The car's own state and its construction. */
module Vehicle {
  import opened Geometry
  import opened Roads

  /** The identity of a car, standing for the object address `ts::Car::checkAccident` compares. */
  type CarId = nat

  /** Speed a new car starts with. */
  const InitialSpeed: real := 200.0
  /** Acceleration every car is built with; nothing changes it afterwards. */
  const Acceleration: real := 200.0
  /** The cap `calculateVelocity` puts on speed. */
  const MaxSpeed: real := 200.0

  /** What a car reads about another car (or itself) in the shared list. */
  datatype CarView = CarView(id: CarId, bounds: Rect, position: Vec, dir: Vec)

  /** A car. `origin` and `dest` never change; `prev` is the node last passed;
      `route` holds the waypoints still ahead, front first; `length` is the
      footprint's extent along the heading. */
  datatype Car = Car(
    id: CarId,
    origin: NodeId,
    dest: NodeId,
    prev: NodeId,
    route: seq<NodeId>,
    position: Vec,
    dir: Vec,
    speed: real,
    accel: real,
    length: real,
    finished: bool,
    inAccident: bool)
  {
    /** Whether the car has reached its destination or run out of route. */
    predicate IsFinished()
    {
      finished
    }
  }

  /** The kinematic invariant every car keeps: speed within [0, MaxSpeed] and the
      fixed acceleration. */
  predicate Valid(c: Car)
  {
    0.0 <= c.speed <= MaxSpeed && c.accel == Acceleration
  }

  /** A car placed at `origin` and heading for `dest`; it searches its first route
      at once, starting from an empty route list. Its heading stays the zero vector
      until its first turn, so both probes sit on its own centre until then. */
  function NewCar(id: CarId, origin: NodeId, dest: NodeId, length: real, w: World, env: Env): (c: Car)
    ensures c.id == id && c.length == length
    ensures c.origin == origin && c.dest == dest && c.prev == origin
    ensures c.dir == Zero
    ensures c.position == env.nodePos(origin)
    ensures c.route == env.findRoute([], origin, dest, w.blocked)
    ensures !c.IsFinished() && !c.inAccident
    ensures Valid(c) && c.speed == MaxSpeed
  {
    Car(id, origin, dest, origin, env.findRoute([], origin, dest, w.blocked),
        env.nodePos(origin), Zero, InitialSpeed, Acceleration, length, false, false)
  }
}
